=== FILE: README.md ===
# Expense bills: access control, attachments and the submission flow

This project models, in Dafny, the core of an expense-bill workflow. Employees submit
expense bills, optionally with a receipt picture. Admins review them. Four parts are modelled:

- **The backend bill controller** (`BillController`, with cross-operation lemmas in
  `BillProperties`). It has five handlers: `create`, `get`, `list`, `update` and `remove`.
  They run over a store that maps each bill's `key` to its record. A handler takes the
  request's user, or none when the request has no user. It returns the HTTP status, the
  payload and the store afterwards. The module also covers the attachment helpers
  `getFileURL` and `isPicture`.
- **The authentication middleware** (`AuthMiddleware`). It takes the token from the
  `Authorization` header, has it verified, looks up the user it names, and then passes
  the request on or answers 401. The token verifier and the user directory are given as
  functions. The middleware's effects are a trace of user attachment, `next()` calls and
  sent responses. `Pipeline` puts the middleware in front of the handlers to state the
  end-to-end rule.
- **The new-bill form** (`NewBillForm`). Its state is `{fileUrl, fileName, billId}`. It
  covers the file-change handler (validation, upload, fallback URL), the submit handler
  (building the bill, the default percentage, immediate navigation), `createBill` and
  `updateBill`. Store replies are parameters, and a null store is `hasStore == false`.
  Outside effects are a sequence of events.
- **The bills page fetch** (`BillsList.GetBills`). It formats each listed bill's date and
  status, with a fallback when the date formatter throws, and then reorders the result.

`Common` holds the shared vocabulary: `Option` stands for `undefined`/`null`, plus
JavaScript truthiness of optional strings, promise settlement and distinct sequences.

In these places the code does not do what a reader might expect, and the model follows the code:

- `create` takes the bill's email from the request body, not from the signed-in user.
- `update` writes every body field, including `email`, `status` and `commentAdmin`, for
  any user in scope. There is no role check.
- An attached file that is not a picture is recorded with the string `"null"` as its name and path. A bill created without a file has neither.
- The backend accepts gif, but the frontend refuses it.
- The bills page sorts with a comparator over parsed dates. Only the permutation is
  modelled.

## Model

| member | source | states |
|---|---|---|
| `BillController.FileUrl` | backend/controllers/bill.js:8-12 | No URL exactly when the path is missing, empty or the string "null". Every URL starts with "http". An http path is returned unchanged. Any other path is prefixed with `http://localhost:5678/`. |
| `BillController.FileUrlIdempotent` | backend/controllers/bill.js:10-11 | Applying the URL derivation to its own non-null result returns that result again. |
| `BillController.IsPicture` | backend/controllers/bill.js:19 | The backend's picture check accepts exactly image/jpeg, image/jpg, image/png and image/gif. |
| `BillController.Lookup` | backend/controllers/bill.js:89-94 | The query pair (key alone for an Admin; key plus email otherwise) finds a bill exactly when the key is stored and the one scope policy `InScope` holds. It returns that stored bill. |
| `BillController.Present` | backend/controllers/bill.js:95-124 | The view sent back has id = key, the stored fields and file name, and fileUrl derived from the stored path. |
| `BillController.NewRecord` | backend/controllers/bill.js:44-75 | The inserted record carries the body's ten fields. An attached file wins: a picture stores its original name and path, any other type stores "null" for both. Without a file, a truthy name-and-URL pair stores the URL as the path. Otherwise nothing is stored. |
| `BillController.Create` | backend/controllers/bill.js:24-80 | No user: 401 and the store is unchanged. Insert failure: 500 with the message, store unchanged. Otherwise 201. The store gains the new key, which no bill carried before, and every other bill is unchanged. The stored record is the `NewRecord` one: the body's fields, email included, and the attachment that `NewRecord` states. A file upload answers `{fileUrl, key}`, with the URL derived from the stored path and no URL for a non-picture. Otherwise the answer is the record. |
| `BillController.Get` | backend/controllers/bill.js:85-128 | No user: 401 "user must be authenticated". Store fault: 500. Otherwise 200 exactly when the bill is in scope, with its presented view. In every other case the answer is the single 401 "unauthorized action". |
| `BillController.Scoped` | backend/controllers/bill.js:137-139 | Each listed key comes from the row order, is stored, and is in the user's scope. Every in-scope key of the row order is among them. |
| `BillController.ScopedKeepsOrder` | backend/controllers/bill.js:137-139 | The query's filtering distributes over concatenation of the row order, so the listed keys keep the relative order of the rows they came from. |
| `BillController.PresentAll` | backend/controllers/bill.js:140-172 | One view per listed key, in the same order. Each view is that bill's presentation. |
| `BillController.List` | backend/controllers/bill.js:133-176 | No user: 401. Fault: 500. Otherwise 200. Every returned view presents an in-scope stored bill, and every in-scope bill the row order lists is returned. Exactness under a full enumeration of the store is `BillProperties.ListExact`. |
| `BillController.Merge` | backend/controllers/bill.js:185-215 | Each of the ten fields the patch carries replaces the stored one. Each field the patch leaves out keeps its stored value. |
| `BillController.Update` | backend/controllers/bill.js:181-220 | No user: 401. Fault: 500. Out of scope or absent: 401 "unauthorized action". In every one of these cases the store is unchanged. In scope: 200 with the updated record. Only that bill changes, only in its ten fields, and its key and attachment are kept. |
| `BillController.Remove` | backend/controllers/bill.js:225-240 | No user: 401. Fault: 500. Out of scope or absent: 401, store unchanged. In scope: "Bill removed". Exactly that key is gone and every other bill is unchanged. |
| `BillProperties.ListExact` | backend/controllers/bill.js:137-172 | When the row order lists each stored key once, the listing has one view per in-scope bill. An Admin gets as many views as stored bills. An Employee gets only bills with their own email. |
| `BillProperties.AbsentAndForeignLookAlike` | backend/controllers/bill.js:89-234 | get, update and remove give an absent id and another owner's id the same 401 "unauthorized action". Neither changes the store. |
| `BillProperties.AdminReachesEverything` | backend/controllers/bill.js:89-90 | An Admin's get of any stored key succeeds with that bill's view. |
| `BillProperties.CreateThenGet` | backend/controllers/bill.js:28-76 | After a create, the same user reads the bill back exactly when they are an Admin or the body's email is theirs. The bill comes back with the submitted fields and with the attachment create recorded: a picture's original name and its path's URL, "null" and no URL for a non-picture, the body's name and URL, or nothing. After a file upload, the URL read back is the one create answered. |
| `BillProperties.EmployeeMayFileForOthers` | backend/controllers/bill.js:28-56 | An Employee may create a bill under someone else's email. The bill is stored with that email and then lies outside the Employee's scope. |
| `BillProperties.FileOnlyDraftIsAdminOnly` | backend/controllers/bill.js:58-66 | A bill created from a file part alone has no email, so no Employee can get it. |
| `BillProperties.EmployeeMaySetStatus` | backend/controllers/bill.js:185-215 | An Employee can write status and commentAdmin on their own bill. No role is checked. |
| `BillProperties.EmailChangeLeavesScope` | backend/controllers/bill.js:197-215 | An Employee who updates their bill's email to another value can no longer get it. |
| `BillProperties.UpdateThenGet` | backend/controllers/bill.js:197-216 | After an update by an Admin, or by an Employee who edits their own bill and keeps its email, the bill reads back with the merged fields, its original file name and its original file URL. |
| `BillProperties.RemoveThenGet` | backend/controllers/bill.js:229-236 | After a removal, every user's get of that id is 401, and every other id reads exactly as before. |
| `BillProperties.OperationsKeepWellFormed` | backend/controllers/bill.js:24-240 | Create, update and remove keep every bill stored under its own key. |
| `AuthMiddleware.Split` | backend/middlewares/auth.js:9 | Splitting on a character yields one more segment than there are separators. No segment contains the separator. |
| `AuthMiddleware.JoinSplit` | backend/middlewares/auth.js:9 | Joining the split segments with the separator gives back the header. |
| `AuthMiddleware.SplitJoin` | backend/middlewares/auth.js:9 | Splitting a join of separator-free segments gives back the segments. |
| `AuthMiddleware.Token` | backend/middlewares/auth.js:9 | The token, the second space-separated segment, exists exactly when the header contains a space. It never contains a space. |
| `AuthMiddleware.TokenOfBearer` | backend/middlewares/auth.js:9 | For a header "scheme token" whose parts contain no space, the token is the second part. |
| `AuthMiddleware.Middleware` | backend/middlewares/auth.js:4-33 | No (or empty) header: `next` once and no user. Verified token with a completed lookup: `next` once, and the handler's user is the directory's user, or none when the email is unknown. Whenever the request is passed on, `next` is the last effect, so the user is attached before the handler reads it. A throw from either collaborator: only a 401 "user not allowed! ..." and no `next`. |
| `AuthMiddleware.NextAtMostOnce` | backend/middlewares/auth.js:19-31 | `next` is called at most once. It is called exactly when the middleware did not answer the request itself. |
| `Pipeline.NoUserNoAccess` | backend/controllers/bill.js:24-240 | Every one of the five handlers answers a request without a user with 401 "user must be authenticated" and leaves the store unchanged. |
| `Pipeline.OnlyKnownUsersReachBills` | backend/middlewares/auth.js:7-31 | A request reaches the bill handler with a user exactly when its header's token verifies and names a known user. Every other request is answered 401 and changes nothing. |
| `Pipeline.UnknownEmailIsUnauthenticated` | backend/middlewares/auth.js:16-20 | A valid token with an unknown email passes the middleware with a null user. The handler then answers 401 "user must be authenticated". |
| `Pipeline.AnonymousIsUnauthenticated` | backend/middlewares/auth.js:27-32 | A request without a header passes through with only a `next` call. Its bill operation is refused with 401. |
| `Pipeline.UploadTypesAgreeExceptGif` | frontend/src/containers/NewBill.js:25 | The form accepts a type exactly when the backend counts it as a picture and it is not gif. |
| `NewBillForm.StoredUrl` | frontend/src/containers/NewBill.js:43-47 | The kept URL is the store's URL when it is non-empty. Otherwise it is "http://localhost:5678/public/" followed by the file's name. |
| `NewBillForm.HandleChangeFile` | frontend/src/containers/NewBill.js:19-57 | A wrong type gives an alert, an input reset and a null result, with no upload and no state change. An accepted type with a store gives exactly one upload. A failure leaves the state unchanged, resets the input and rethrows the store's error. A success stores the URL, the file name and the returned key, and returns them. With a null store an accepted file fails with the null-store error. With a null store the events are the error log and the input reset. With a store, a resolved upload emits only the upload request (the file with noContentType) and resolves with `{fileUrl, key, fileName}`. A rejected one emits the upload request, the error log and the input reset, and rejects with the store's error. |
| `NewBillForm.GifRefused` | frontend/src/containers/NewBill.js:24-30 | A gif is refused, with no upload and no state change. |
| `NewBillForm.Pct` | frontend/src/containers/NewBill.js:69 | The percentage is never 0. It is the parsed number when that is a nonzero number, and 20 otherwise. |
| `NewBillForm.BuildBill` | frontend/src/containers/NewBill.js:61-74 | The submitted bill is "pending". It carries the user's email, the form's values, the parsed amount and the defaulted percentage, and the file URL and name the state holds. |
| `NewBillForm.CreateBill` | frontend/src/containers/NewBill.js:81-93 | Without a store: no events. With one: one create request, then navigation to the bills page on success or an error log on failure. |
| `NewBillForm.HandleSubmit` | frontend/src/containers/NewBill.js:59-79 | The form state is unchanged. Without a store: only the navigation to the bills page. With a store that accepts: the create request for the built bill, then the navigation, then createBill's own navigation. With a store that rejects: the create request, the navigation, then the logged error. |
| `NewBillForm.SubmitAlwaysNavigates` | frontend/src/containers/NewBill.js:76-78 | Submitting navigates to the bills page whatever the store answers. With a store, the navigation follows a single create of a pending bill that carries the state's file URL and name. |
| `NewBillForm.UpdateBill` | frontend/src/containers/NewBill.js:96-111 | Without a store: null and no events. With one: one update whose selector is the state's billId, then navigation on success or an error log on failure. The returned promise settles as the store's reply does. |
| `NewBillForm.UploadThenSubmit` | frontend/src/containers/NewBill.js:43-72 | After a successful upload, the submitted bill carries the upload's URL (or the fallback URL) and the file's name. |
| `NewBillForm.UploadThenUpdate` | frontend/src/containers/NewBill.js:49-100 | After a successful upload, updateBill targets the key the upload returned. |
| `NewBillForm.FailedUploadKeepsEarlier` | frontend/src/containers/NewBill.js:52-56 | A failed upload after a successful one keeps the earlier URL, name and bill key. |
| `BillsList.Normalize` | frontend/src/containers/Bills.js:57-70 | Every attribute except date and status is copied. The status is always formatted. The date is formatted when the formatter succeeds and kept as it was when the formatter throws. |
| `BillsList.NormalizeAll` | frontend/src/containers/Bills.js:55-71 | There is one normalized bill per listed bill, at the same position. |
| `BillsList.Arrange` | frontend/src/containers/Bills.js:72 | Reordering by a sequence of positions picks, at each place, the element at that position. |
| `BillsList.ArrangePermutes` | frontend/src/containers/Bills.js:72 | Reordering by a permutation keeps every element with its multiplicity. |
| `BillsList.GetBills` | frontend/src/containers/Bills.js:52-78 | Without a store: undefined and no list request. With a store: one list request. A rejection is passed on unchanged. A success returns as many bills as were listed, and they are a permutation of the normalized bills. |
| `BillsList.NoBillDropped` | frontend/src/containers/Bills.js:55-72 | Every listed bill appears in the result in normalized form. A bill whose date cannot be formatted appears with its original date and its formatted status. |

## Left out

- HTTP and ORM plumbing: Express `req`/`res`, routing and logging are not modelled. Each handler's unexpected store exception is one `fault` parameter (or the `InsertFailed` reply for create). That parameter gives the 500 answer with the error's message.
- The store's row order for a full-table query is a parameter (`order`). The exactness lemma assumes it lists each stored key once.
- Key generation is the database's job: create receives the generated key in its `Inserted` reply. That the key is new is the database's guarantee, so create (and the request pipeline) require that no stored bill carries it.
- `remove` deletes by the row's primary `id`. The model deletes the entry of the key it found, which assumes one row per key.
- `BillController.Merge`: follows the ORM's instance update, which omits attributes that are `undefined`. An explicit JSON `null` in the update body is not told apart from an absent field. The model keeps the stored value, where the ORM would write null.
- Body values are typed (text or integer). Non-string values in text fields and JSON type coercion are not modelled.
- The user's `type` is reduced to Admin/Employee, because the handlers only compare `type` with 'Admin'.
- The JWT verifier (`services/jwt`) and the user directory are not part of this model. They are given as functions, including what they do with a missing token or email.
- `AuthMiddleware.Middleware`: assumes `next()` returns normally. A downstream handler that threw synchronously inside the `try` would make the middleware also send a 401. The bill handlers are asynchronous and cannot do that.
- Frontend DOM wiring, `preventDefault`, `alert` display, `console` output, FormData contents and the `onNavigate` mechanics are left out. Only the events listed in `NewBillForm.Event` are recorded, with the route reduced to the bills page.
- A change event with no file, and a missing user in `localStorage`, both throw in the source and are not modelled. The picked file and the user's email are parameters.
- JavaScript's `parseInt` is a function parameter from string to optional integer, where a missing value is NaN.
- `formatDate` and `formatStatus` (from `app/format.js`) are not part of this model. They are parameters, and `formatDate` is partial.
- `BillsList.GetBills`: states only that the result is a permutation of the normalized bills. The `.sort` comparator compares parsed `Date`s and never returns 0, so it is not a consistent order. The arrangement is a permutation parameter.
- `handleClickIconEye`, `handleClickNewBill` and `views/Actions.js` are UI rendering and navigation markup.
- Asynchronous timing, promise interleavings and lost updates between concurrent writers are left out. Each handler is one atomic step.

=== FILE: auth_middleware.dfy ===
/** The authentication middleware: it reads the bearer token from the
    Authorization header, has it verified, looks up the user the token names,
    and either passes the request on (with or without a user) or answers 401.

    The token verifier and the user directory are collaborators whose answers
    are given as functions; what the middleware does is recorded as a trace of
    effects on the request, the response and the `next` continuation. */
module AuthMiddleware {
  import opened Common
  import opened BillController

  // ---------------------------------------------------------------------------
  // Splitting the header

  /** How many times `c` occurs in `s`. */
  function Occurrences(s: string, c: char): nat
  {
    if s == [] then 0 else (if s[0] == c then 1 else 0) + Occurrences(s[1..], c)
  }

  /** String.prototype.split with a one-character separator: the maximal
      separator-free segments, one more than there are separators. */
  function Split(s: string, sep: char): (parts: seq<string>)
    ensures |parts| == Occurrences(s, sep) + 1
    ensures forall i | 0 <= i < |parts| :: sep !in parts[i]
  {
    if s == [] then [""]
    else
      var rest := Split(s[1..], sep);
      if s[0] == sep then [""] + rest
      else [[s[0]] + rest[0]] + rest[1..]
  }

  /** Array.prototype.join with a one-character separator. */
  function Join(parts: seq<string>, sep: char): string
    requires |parts| >= 1
  {
    if |parts| == 1 then parts[0] else parts[0] + [sep] + Join(parts[1..], sep)
  }

  /** Joining the segments back gives the original string. */
  lemma {:induction false} JoinSplit(s: string, sep: char)
    ensures Join(Split(s, sep), sep) == s
  {
    if s != [] {
      var rest := Split(s[1..], sep);
      JoinSplit(s[1..], sep);
      if s[0] == sep {
        assert Split(s, sep) == [""] + rest;
        assert ([""] + rest)[1..] == rest;
      } else {
        var parts := [[s[0]] + rest[0]] + rest[1..];
        assert Split(s, sep) == parts;
        if |rest| == 1 {
          assert Join(parts, sep) == [s[0]] + rest[0];
        } else {
          assert parts[1..] == rest[1..];
          assert Join(rest, sep) == rest[0] + [sep] + Join(rest[1..], sep);
        }
      }
    }
  }

  /** Splitting a join of separator-free segments gives the segments back. */
  lemma {:induction false} SplitJoin(parts: seq<string>, sep: char)
    requires |parts| >= 1
    requires forall i | 0 <= i < |parts| :: sep !in parts[i]
    ensures Split(Join(parts, sep), sep) == parts
  {
    if |parts| == 1 {
      SplitSegment(parts[0], [], sep);
      assert parts[0] + [] == parts[0];
    } else {
      var tail := parts[1..];
      assert forall i | 0 <= i < |tail| :: sep !in tail[i] by {
        forall i | 0 <= i < |tail|
          ensures sep !in tail[i]
        {
          assert tail[i] == parts[i + 1];
        }
      }
      SplitJoin(tail, sep);
      var s := parts[0] + [sep] + Join(tail, sep);
      SplitSeparator(Join(tail, sep), sep);
      SplitSegment(parts[0], [sep] + Join(tail, sep), sep);
      assert s == parts[0] + ([sep] + Join(tail, sep));
      var after := Split([sep] + Join(tail, sep), sep);
      assert after == [""] + tail;
      assert after[0] == "" && after[1..] == tail;
      assert parts[0] + after[0] == parts[0];
      assert Split(s, sep) == [parts[0]] + tail;
      assert parts == [parts[0]] + tail;
    }
  }

  /** A leading separator opens an empty first segment. */
  lemma SplitSeparator(s: string, sep: char)
    ensures Split([sep] + s, sep) == [""] + Split(s, sep)
  {
    assert ([sep] + s)[1..] == s;
  }

  /** A separator-free prefix extends the first segment of what follows it. */
  lemma {:induction false} SplitSegment(prefix: string, s: string, sep: char)
    requires sep !in prefix
    ensures var rest := Split(s, sep); Split(prefix + s, sep) == [prefix + rest[0]] + rest[1..]
  {
    var rest := Split(s, sep);
    if prefix == [] {
      assert prefix + s == s;
      assert prefix + rest[0] == rest[0];
      assert rest == [rest[0]] + rest[1..];
    } else {
      SplitSegment(prefix[1..], s, sep);
      assert (prefix + s)[1..] == prefix[1..] + s;
      assert (prefix + s)[0] == prefix[0] != sep;
      var inner := Split(prefix[1..] + s, sep);
      assert inner == [prefix[1..] + rest[0]] + rest[1..];
      assert [prefix[0]] + (prefix[1..] + rest[0]) == prefix + rest[0];
    }
  }

  /** The token: the second space-separated segment of the header, missing when the header has no space. */
  function Token(header: string): (token: Option<string>)
    ensures token.Some? <==> ' ' in header
    ensures token.Some? ==> ' ' !in token.value
  {
    var parts := Split(header, ' ');
    OccurrencesPositive(header, ' ');
    if |parts| >= 2 then Some(parts[1]) else None
  }

  /** A string contains a character exactly when it occurs in it at least once. */
  lemma {:induction false} OccurrencesPositive(s: string, c: char)
    ensures c in s <==> Occurrences(s, c) > 0
  {
    if s != [] {
      OccurrencesPositive(s[1..], c);
      assert s == [s[0]] + s[1..];
    }
  }

  /** The usual header shape: the scheme, one space, the token. */
  lemma TokenOfBearer(scheme: string, token: string)
    requires ' ' !in scheme && ' ' !in token
    ensures Token(scheme + " " + token) == Some(token)
  {
    SplitJoin([scheme, token], ' ');
    assert Join([scheme, token], ' ') == scheme + " " + token by {
      assert Join([scheme, token][1..], ' ') == token;
    }
  }

  // ---------------------------------------------------------------------------
  // The middleware

  /** The verifier's answer: the payload's `data.email` (missing when the payload has none), or a throw. */
  datatype VerifyReply = Verified(email: Option<string>) | VerifyThrew

  /** The user directory's answer to a lookup by email. */
  datatype LookupReply = Found(user: Principal) | NotFound | LookupThrew

  datatype Effect =
    | AttachUser(user: Option<Principal>)   // req.user := user, where None is null
    | CallNext                              // next()
    | Send(status: int, message: string)    // res.status(status).send({message})

  const NotAllowed := "user not allowed! you should clear your localstorage and retry!"

  /** The three outcomes of the middleware, by cases on the header, the verifier and the directory:
      no header passes on anonymously; a verified token whose lookup completes passes on with the
      user found, or with none for an unknown email; a throw from either collaborator is answered 401.
      When the request is passed on, `next` is the last effect, so the user is attached before the
      handler runs and reads it. */
  function Middleware(header: Option<string>, verify: Option<string> -> VerifyReply,
                      lookup: Option<string> -> LookupReply): (trace: seq<Effect>)
    ensures !Truthy(header) ==>
      NextCalls(trace) == 1 && trace[|trace| - 1] == CallNext && !Answered(trace) && HandlerUser(trace).None?
    ensures Truthy(header) && verify(Token(header.value)).Verified? &&
            !lookup(verify(Token(header.value)).email).LookupThrew? ==>
      && NextCalls(trace) == 1 && trace[|trace| - 1] == CallNext && !Answered(trace)
      && HandlerUser(trace) == (match lookup(verify(Token(header.value)).email)
                                case Found(u) => Some(u)
                                case _ => None)
    ensures Truthy(header) && (verify(Token(header.value)).VerifyThrew? ||
                               lookup(verify(Token(header.value)).email).LookupThrew?) ==>
      && NextCalls(trace) == 0
      && trace == [Send(401, NotAllowed)]
  {
    if !Truthy(header) then PassedOn([CallNext], None); [CallNext]
    else
      match verify(Token(header.value))
      case VerifyThrew => Refused(); [Send(401, NotAllowed)]
      case Verified(email) =>
        match lookup(email)
        case LookupThrew => Refused(); [Send(401, NotAllowed)]
        case NotFound => PassedOn([AttachUser(None), CallNext], None); [AttachUser(None), CallNext]
        case Found(user) => PassedOn([AttachUser(Some(user)), CallNext], Some(user)); [AttachUser(Some(user)), CallNext]
  }

  /** A trace that ends in one `next` after at most one attachment passes the request on once, with that user. */
  lemma PassedOn(trace: seq<Effect>, user: Option<Principal>)
    requires trace == [CallNext] || trace == [AttachUser(user), CallNext]
    requires trace == [CallNext] ==> user.None?
    ensures NextCalls(trace) == 1 && !Answered(trace) && HandlerUser(trace) == user
  {
    if |trace| == 1 {
      assert NextCalls(trace[1..]) == 0;
      assert HandlerUser(trace[..0]) == None;
    } else {
      assert NextCalls(trace[1..]) == 1 by {
        assert trace[1..][1..] == [];
      }
      assert !trace[0].Send? && !trace[1].Send?;
      assert HandlerUser(trace[..1]) == trace[0].user;
    }
  }

  /** The 401 answer never calls `next`. */
  lemma Refused()
    ensures NextCalls([Send(401, NotAllowed)]) == 0 && Answered([Send(401, NotAllowed)])
  {
    assert [Send(401, NotAllowed)][0].Send?;
  }

  /** How many times the trace calls `next`. */
  function NextCalls(trace: seq<Effect>): nat
  {
    if trace == [] then 0 else (if trace[0].CallNext? then 1 else 0) + NextCalls(trace[1..])
  }

  /** The user the downstream handler sees: the last one attached, or none (undefined or null). */
  function HandlerUser(trace: seq<Effect>): Option<Principal>
  {
    if trace == [] then None
    else
      var last := trace[|trace| - 1];
      if last.AttachUser? then last.user else HandlerUser(trace[..|trace| - 1])
  }

  /** Whether the middleware answered the request itself. */
  predicate Answered(trace: seq<Effect>)
  {
    exists i | 0 <= i < |trace| :: trace[i].Send?
  }

  /** `next` is called at most once, and never on a request the middleware answered. */
  lemma NextAtMostOnce(header: Option<string>, verify: Option<string> -> VerifyReply,
                       lookup: Option<string> -> LookupReply)
    ensures var trace := Middleware(header, verify, lookup);
      && NextCalls(trace) <= 1
      && (Answered(trace) <==> NextCalls(trace) == 0)
  {
  }
}

=== FILE: bill_controller.dfy ===
/** The backend bill controller: attachment URL derivation, the picture check,
    and the five request handlers create, get, list, update and remove.

    The persistence layer is a map from a bill's `key` to its record. A handler
    receives the authenticated user (None when the request carries none), the
    request's parameters, the store, and the store's reply where the store can
    fail; it returns the HTTP response and the store afterwards. */
module BillController {
  import opened Common

  datatype Role = Admin | Employee

  /** The user the authentication middleware attached to the request.
      The handlers only compare `type` with 'Admin'; every other type is scoped like an Employee. */
  datatype Principal = Principal(email: string, role: Role)

  /** The ten bill attributes a request body carries; an attribute the body leaves out is None. */
  datatype Fields = Fields(
    name: Option<string>,
    expenseType: Option<string>,
    email: Option<string>,
    date: Option<string>,
    vat: Option<string>,
    pct: Option<int>,
    commentary: Option<string>,
    status: Option<string>,
    commentAdmin: Option<string>,
    amount: Option<int>)

  /** A stored bill: its key, its attributes and its attachment's name and storage path. */
  datatype Bill = Bill(key: string, fields: Fields, fileName: Option<string>, filePath: Option<string>)

  type Store = map<string, Bill>

  /** The body of a create request: the attributes and the name and URL of an already uploaded file. */
  datatype CreateBody = CreateBody(fields: Fields, fileName: Option<string>, fileUrl: Option<string>)

  /** The multipart file attached to a create request. */
  datatype UploadedFile = UploadedFile(originalName: string, mimeType: string, path: string)

  /** The store's answer to an insert: the key it generated, or the error it threw. */
  datatype InsertReply = Inserted(key: string) | InsertFailed(message: string)

  /** A bill as get and list present it: `id` is the key and `fileUrl` is derived from the path. */
  datatype BillView = BillView(id: string, fields: Fields, fileName: Option<string>, fileUrl: Option<string>)

  datatype Payload =
    | Message(text: string)
    | FileRef(fileUrl: Option<string>, key: string)
    | Record(bill: Bill)
    | Single(view: BillView)
    | Many(views: seq<BillView>)
    | Text(body: string)

  datatype Response = Response(status: int, payload: Payload)

  const PublicBase := "http://localhost:5678/"
  const PictureTypes := ["image/jpeg", "image/jpg", "image/png", "image/gif"]

  const Unauthenticated := Response(401, Message("user must be authenticated"))
  const Unauthorized := Response(401, Message("unauthorized action"))
  const Removed := Response(200, Text("Bill removed"))

  function ServerError(message: string): Response
  {
    Response(500, Message(message))
  }

  // ---------------------------------------------------------------------------
  // Helpers

  /** The public URL of a stored attachment path: none for a missing or empty path
      or the "null" placeholder, the path itself when it is already an http URL,
      and otherwise the path resolved against the public base address. */
  function FileUrl(filePath: Option<string>): (url: Option<string>)
    ensures url.None? <==> !Truthy(filePath) || filePath.value == "null"
    ensures url.Some? ==> StartsWith(url.value, "http")
    ensures url.Some? && StartsWith(filePath.value, "http") ==> url == filePath
    ensures url.Some? && !StartsWith(filePath.value, "http") ==> url.value == PublicBase + filePath.value
  {
    if !Truthy(filePath) || filePath.value == "null" then None
    else if StartsWith(filePath.value, "http") then filePath
    else
      var url := PublicBase + filePath.value;
      assert url[..4] == PublicBase[..4] == "http";
      Some(url)
  }

  /** Resolving an already resolved URL changes nothing. */
  lemma FileUrlIdempotent(filePath: Option<string>)
    requires FileUrl(filePath).Some?
    ensures FileUrl(FileUrl(filePath)) == FileUrl(filePath)
  {
    var url := FileUrl(filePath).value;
    assert url[..4] == "http";
    assert url != "null";
  }

  /** The media types the backend stores as attachments: the three still-image types and gif. */
  function IsPicture(mimeType: string): (picture: bool)
    ensures picture <==>
      mimeType == "image/jpeg" || mimeType == "image/jpg" || mimeType == "image/png" || mimeType == "image/gif"
  {
    mimeType in PictureTypes
  }

  // ---------------------------------------------------------------------------
  // Scope

  /** The two `where` clauses the handlers query with: key alone, or key and owner email. */
  datatype Where = KeyIs(key: string) | KeyAndEmail(key: string, email: string)

  /** A single-row query against the store. */
  function FindOne(store: Store, where: Where): Option<Bill>
  {
    if where.key !in store then None
    else
      var bill := store[where.key];
      match where
      case KeyIs(_) => Some(bill)
      case KeyAndEmail(_, email) => if bill.fields.email == Some(email) then Some(bill) else None
  }

  /** The access policy the queries implement: an Admin reaches every bill,
      anyone else only the bills whose email is their own. */
  predicate InScope(user: Principal, bill: Bill)
  {
    user.role == Admin || bill.fields.email == Some(user.email)
  }

  /** The role-dependent lookup shared by get, update and remove. */
  function Lookup(user: Principal, id: string, store: Store): (found: Option<Bill>)
    ensures found.Some? <==> id in store && InScope(user, store[id])
    ensures found.Some? ==> found.value == store[id]
  {
    if user.role == Admin then FindOne(store, KeyIs(id))
    else FindOne(store, KeyAndEmail(id, user.email))
  }

  /** The projection get and list send back. */
  function Present(bill: Bill): (view: BillView)
    ensures view.id == bill.key && view.fields == bill.fields && view.fileName == bill.fileName
    ensures view.fileUrl == FileUrl(bill.filePath)
  {
    BillView(bill.key, bill.fields, bill.fileName, FileUrl(bill.filePath))
  }

  // ---------------------------------------------------------------------------
  // create

  /** The record create inserts under a generated key. A multipart file takes
      precedence; a non-picture file is recorded with the "null" placeholder.
      Without a file, a body naming both a file name and a URL records that URL
      as the path; otherwise no attachment is recorded. */
  function NewRecord(key: string, body: CreateBody, file: Option<UploadedFile>): (bill: Bill)
    ensures bill.key == key && bill.fields == body.fields
    ensures file.Some? && IsPicture(file.value.mimeType) ==>
      bill.fileName == Some(file.value.originalName) && bill.filePath == Some(file.value.path)
    ensures file.Some? && !IsPicture(file.value.mimeType) ==>
      bill.fileName == Some("null") && bill.filePath == Some("null")
    ensures file.None? && Truthy(body.fileName) && Truthy(body.fileUrl) ==>
      bill.fileName == body.fileName && bill.filePath == body.fileUrl
    ensures file.None? && !(Truthy(body.fileName) && Truthy(body.fileUrl)) ==>
      bill.fileName.None? && bill.filePath.None?
  {
    match file
    case Some(f) =>
      if IsPicture(f.mimeType) then Bill(key, body.fields, Some(f.originalName), Some(f.path))
      else Bill(key, body.fields, Some("null"), Some("null"))
    case None =>
      if Truthy(body.fileName) && Truthy(body.fileUrl) then Bill(key, body.fields, body.fileName, body.fileUrl)
      else Bill(key, body.fields, None, None)
  }

  /** create. The key of a successful insert is one the store generated, so no bill carries it yet. */
  function Create(user: Option<Principal>, body: CreateBody, file: Option<UploadedFile>,
                  store: Store, insert: InsertReply): (r: (Response, Store))
    requires insert.Inserted? ==> insert.key !in store
    ensures user.None? ==> r == (Unauthenticated, store)
    ensures user.Some? && insert.InsertFailed? ==> r == (ServerError(insert.message), store)
    ensures user.Some? && insert.Inserted? ==>
      var key := insert.key;
      && r.0.status == 201
      && r.1.Keys == store.Keys + {key}
      && (forall k | k in store && k != key :: r.1[k] == store[k])
      && r.1[key] == NewRecord(key, body, file)
      && (file.Some? ==> r.0.payload == FileRef(FileUrl(r.1[key].filePath), key))
      && (file.None? ==> r.0.payload == Record(r.1[key]))
  {
    if user.None? then (Unauthenticated, store)
    else
      match insert
      case InsertFailed(message) => (ServerError(message), store)
      case Inserted(key) =>
        var bill := NewRecord(key, body, file);
        var response :=
          if file.Some? then Response(201, FileRef(FileUrl(bill.filePath), key))
          else Response(201, Record(bill));
        (response, store[key := bill])
  }

  // ---------------------------------------------------------------------------
  // get

  function Get(user: Option<Principal>, id: string, store: Store, fault: Option<string>): (r: Response)
    ensures user.None? ==> r == Unauthenticated
    ensures user.Some? && fault.Some? ==> r == ServerError(fault.value)
    ensures user.Some? && fault.None? ==>
      && (r.status == 200 <==> id in store && InScope(user.value, store[id]))
      && (r.status == 200 ==> r.payload == Single(Present(store[id])))
      && (r.status != 200 ==> r == Unauthorized)
  {
    if user.None? then Unauthenticated
    else if fault.Some? then ServerError(fault.value)
    else
      match Lookup(user.value, id, store)
      case None => Unauthorized
      case Some(bill) => Response(200, Single(Present(bill)))
  }

  // ---------------------------------------------------------------------------
  // list

  /** The keys, in the store's row order, of the bills the user's query returns
      (that the order is kept is `ScopedKeepsOrder`).
      `order` is the order the store yields its rows in; keys absent from the store yield nothing. */
  function Scoped(user: Principal, order: seq<string>, store: Store): (keys: seq<string>)
    ensures |keys| <= |order|
    ensures forall k | k in keys :: k in store && InScope(user, store[k])
    ensures forall k | k in order && k in store && InScope(user, store[k]) :: k in keys
    ensures forall k | k in keys :: k in order
  {
    if order == [] then []
    else
      var rest := Scoped(user, order[1..], store);
      var k := order[0];
      if k in store && InScope(user, store[k]) then [k] + rest else rest
  }

  /** Filtering distributes over concatenation of row orders, so the listed keys keep the
      relative order the rows came in: a key listed before another comes from an earlier part. */
  lemma {:induction false} ScopedKeepsOrder(user: Principal, front: seq<string>, back: seq<string>, store: Store)
    ensures Scoped(user, front + back, store) == Scoped(user, front, store) + Scoped(user, back, store)
  {
    if front == [] {
      assert front + back == back;
    } else {
      var k, rest := front[0], front[1..];
      Uncons(front, back);
      ScopedKeepsOrder(user, rest, back, store);
      ScopedCons(user, k, rest, store);
      ScopedCons(user, k, rest + back, store);
      var head := if k in store && InScope(user, store[k]) then [k] else [];
      Associative(head, Scoped(user, rest, store), Scoped(user, back, store));
    }
  }

  /** Filtering a row order that starts with `k`: `k` if it is in scope, then the filtered rest. */
  lemma ScopedCons(user: Principal, k: string, rest: seq<string>, store: Store)
    ensures Scoped(user, [k] + rest, store) ==
      (if k in store && InScope(user, store[k]) then [k] else []) + Scoped(user, rest, store)
  {
    assert ([k] + rest)[0] == k && ([k] + rest)[1..] == rest;
  }

  /** Presents each listed key's bill, keeping the order. */
  function PresentAll(keys: seq<string>, store: Store): (views: seq<BillView>)
    requires forall k | k in keys :: k in store
    ensures |views| == |keys|
    ensures forall i | 0 <= i < |keys| :: views[i] == Present(store[keys[i]])
    ensures forall k | k in keys :: Present(store[k]) in views
    ensures forall v | v in views :: exists k | k in keys :: v == Present(store[k])
  {
    if keys == [] then [] else [Present(store[keys[0]])] + PresentAll(keys[1..], store)
  }

  function List(user: Option<Principal>, order: seq<string>, store: Store, fault: Option<string>): (r: Response)
    ensures user.None? ==> r == Unauthenticated
    ensures user.Some? && fault.Some? ==> r == ServerError(fault.value)
    ensures user.Some? && fault.None? ==>
      && r.status == 200 && r.payload.Many?
      && (forall v | v in r.payload.views ::
            exists k | k in store && InScope(user.value, store[k]) :: v == Present(store[k]))
      && (forall k | k in order && k in store && InScope(user.value, store[k]) :: Present(store[k]) in r.payload.views)
  {
    if user.None? then Unauthenticated
    else if fault.Some? then ServerError(fault.value)
    else Response(200, Many(PresentAll(Scoped(user.value, order, store), store)))
  }

  // ---------------------------------------------------------------------------
  // update

  /** Each attribute the patch carries replaces the stored one; attributes the
      body leaves out (undefined) are dropped by the ORM and keep their value. */
  function Merge(stored: Fields, patch: Fields): (merged: Fields)
    ensures patch.name.Some? ==> merged.name == patch.name
    ensures patch.name.None? ==> merged.name == stored.name
    ensures patch.expenseType.Some? ==> merged.expenseType == patch.expenseType
    ensures patch.expenseType.None? ==> merged.expenseType == stored.expenseType
    ensures patch.email.Some? ==> merged.email == patch.email
    ensures patch.email.None? ==> merged.email == stored.email
    ensures patch.date.Some? ==> merged.date == patch.date
    ensures patch.date.None? ==> merged.date == stored.date
    ensures patch.vat.Some? ==> merged.vat == patch.vat
    ensures patch.vat.None? ==> merged.vat == stored.vat
    ensures patch.pct.Some? ==> merged.pct == patch.pct
    ensures patch.pct.None? ==> merged.pct == stored.pct
    ensures patch.commentary.Some? ==> merged.commentary == patch.commentary
    ensures patch.commentary.None? ==> merged.commentary == stored.commentary
    ensures patch.status.Some? ==> merged.status == patch.status
    ensures patch.status.None? ==> merged.status == stored.status
    ensures patch.commentAdmin.Some? ==> merged.commentAdmin == patch.commentAdmin
    ensures patch.commentAdmin.None? ==> merged.commentAdmin == stored.commentAdmin
    ensures patch.amount.Some? ==> merged.amount == patch.amount
    ensures patch.amount.None? ==> merged.amount == stored.amount
  {
    Fields(
      Or(patch.name, stored.name), Or(patch.expenseType, stored.expenseType), Or(patch.email, stored.email),
      Or(patch.date, stored.date), Or(patch.vat, stored.vat), Or(patch.pct, stored.pct),
      Or(patch.commentary, stored.commentary), Or(patch.status, stored.status),
      Or(patch.commentAdmin, stored.commentAdmin), Or(patch.amount, stored.amount))
  }

  function Or<T>(preferred: Option<T>, fallback: Option<T>): Option<T>
  {
    if preferred.Some? then preferred else fallback
  }

  function Update(user: Option<Principal>, id: string, patch: Fields, store: Store, fault: Option<string>): (r: (Response, Store))
    ensures user.None? ==> r == (Unauthenticated, store)
    ensures user.Some? && fault.Some? ==> r == (ServerError(fault.value), store)
    ensures user.Some? && fault.None? && !(id in store && InScope(user.value, store[id])) ==> r == (Unauthorized, store)
    ensures user.Some? && fault.None? && id in store && InScope(user.value, store[id]) ==>
      var updated := store[id].(fields := Merge(store[id].fields, patch));
      && r.0 == Response(200, Record(updated))
      && r.1.Keys == store.Keys
      && r.1[id] == updated
      && (forall k | k in store && k != id :: r.1[k] == store[k])
  {
    if user.None? then (Unauthenticated, store)
    else if fault.Some? then (ServerError(fault.value), store)
    else
      match Lookup(user.value, id, store)
      case None => (Unauthorized, store)
      case Some(bill) =>
        var updated := bill.(fields := Merge(bill.fields, patch));
        (Response(200, Record(updated)), store[id := updated])
  }

  // ---------------------------------------------------------------------------
  // remove

  function Remove(user: Option<Principal>, id: string, store: Store, fault: Option<string>): (r: (Response, Store))
    ensures user.None? ==> r == (Unauthenticated, store)
    ensures user.Some? && fault.Some? ==> r == (ServerError(fault.value), store)
    ensures user.Some? && fault.None? && !(id in store && InScope(user.value, store[id])) ==> r == (Unauthorized, store)
    ensures user.Some? && fault.None? && id in store && InScope(user.value, store[id]) ==>
      && r.0 == Removed
      && r.1.Keys == store.Keys - {id}
      && (forall k | k in r.1 :: r.1[k] == store[k])
  {
    if user.None? then (Unauthenticated, store)
    else if fault.Some? then (ServerError(fault.value), store)
    else
      match Lookup(user.value, id, store)
      case None => (Unauthorized, store)
      case Some(_) => (Removed, map k | k in store && k != id :: store[k])
  }
}

=== FILE: bill_properties.dfy ===
/** Properties that relate several bill controller operations: exactness of
    the scoped listing, round trips through create, update and remove, the
    information hiding of the scope check, and the key invariant of the store. */
module BillProperties {
  import opened Common
  import opened BillController

  /** `order` lists every key of the store exactly once, as a full-table query yields its rows. */
  predicate Enumerates(order: seq<string>, store: Store)
  {
    Distinct(order) && (forall k | k in order :: k in store) && (forall k | k in store :: k in order)
  }

  /** The keys of the bills a user may reach. */
  function ScopeKeys(user: Principal, store: Store): set<string>
  {
    set k | k in store && InScope(user, store[k])
  }

  /** Every bill is stored under its own key. */
  predicate WellFormed(store: Store)
  {
    forall k | k in store :: store[k].key == k
  }

  // ---------------------------------------------------------------------------
  // list

  /** Filtering a repetition-free row order keeps it repetition-free. */
  lemma {:induction false} ScopedDistinct(user: Principal, order: seq<string>, store: Store)
    requires Distinct(order)
    ensures Distinct(Scoped(user, order, store))
  {
    if order != [] {
      var tail := order[1..];
      assert Distinct(tail) by {
        forall i, j | 0 <= i < j < |tail|
          ensures tail[i] != tail[j]
        {
          assert tail[i] == order[i + 1] && tail[j] == order[j + 1];
        }
      }
      ScopedDistinct(user, tail, store);
      var rest := Scoped(user, tail, store);
      assert order[0] !in tail by {
        forall i | 0 <= i < |tail|
          ensures tail[i] != order[0]
        {
          assert tail[i] == order[i + 1];
        }
      }
      assert order[0] !in rest;
      var keys := Scoped(user, order, store);
      if keys != rest {
        assert keys == [order[0]] + rest;
        forall i, j | 0 <= i < j < |keys|
          ensures keys[i] != keys[j]
        {
          if i == 0 {
            assert keys[j] == rest[j - 1];
          } else {
            assert keys[i] == rest[i - 1] && keys[j] == rest[j - 1];
          }
        }
      }
    }
  }

  /** A listing answers each bill in the user's scope exactly once: as many views
      as scoped bills, all of the table for an Admin, and only the user's own
      bills for anyone else. */
  lemma ListExact(user: Principal, order: seq<string>, store: Store)
    requires Enumerates(order, store)
    ensures var r := List(Some(user), order, store, None);
      && r.status == 200
      && |r.payload.views| == |ScopeKeys(user, store)|
      && (user.role == Admin ==> |r.payload.views| == |store|)
      && (user.role == Employee ==> forall v | v in r.payload.views :: v.fields.email == Some(user.email))
  {
    var keys := Scoped(user, order, store);
    ScopedDistinct(user, order, store);
    DistinctCardinality(keys);
    assert Elements(keys) == ScopeKeys(user, store);
    if user.role == Admin {
      assert ScopeKeys(user, store) == store.Keys;
    }
  }

  // ---------------------------------------------------------------------------
  // Scope

  /** The scope check does not reveal whether a bill exists: an id that is absent
      and an id that belongs to someone else are answered alike, by every handler. */
  lemma AbsentAndForeignLookAlike(user: Principal, absent: string, foreign: string, patch: Fields, store: Store)
    requires absent !in store
    requires foreign in store && !InScope(user, store[foreign])
    ensures Get(Some(user), absent, store, None) == Get(Some(user), foreign, store, None) == Unauthorized
    ensures Update(Some(user), absent, patch, store, None) == Update(Some(user), foreign, patch, store, None) == (Unauthorized, store)
    ensures Remove(Some(user), absent, store, None) == Remove(Some(user), foreign, store, None) == (Unauthorized, store)
  {
  }

  /** Only an Employee can be out of scope: an Admin reaches every stored bill. */
  lemma AdminReachesEverything(user: Principal, id: string, store: Store)
    requires user.role == Admin && id in store
    ensures Get(Some(user), id, store, None) == Response(200, Single(Present(store[id])))
  {
  }

  // ---------------------------------------------------------------------------
  // Round trips

  /** A created bill reads back with the submitted attributes, and its owner is
      the email of the body, not the caller: an Employee reads it back exactly
      when the body's email is their own. The attachment reads back as create
      recorded it, and after a multipart upload with the URL create answered. */
  lemma CreateThenGet(user: Principal, body: CreateBody, file: Option<UploadedFile>, store: Store, key: string)
    requires key !in store
    ensures var (created, after) := Create(Some(user), body, file, store, Inserted(key));
      var r := Get(Some(user), key, after, None);
      && (r.status == 200 <==> user.role == Admin || body.fields.email == Some(user.email))
      && (r.status == 200 ==> r.payload.view.id == key && r.payload.view.fields == body.fields)
      && (r.status == 200 && file.Some? ==> r.payload.view.fileUrl == created.payload.fileUrl)
      && (r.status == 200 && file.Some? && IsPicture(file.value.mimeType) ==>
            r.payload.view.fileName == Some(file.value.originalName) &&
            r.payload.view.fileUrl == FileUrl(Some(file.value.path)))
      && (r.status == 200 && file.Some? && !IsPicture(file.value.mimeType) ==>
            r.payload.view.fileName == Some("null") && r.payload.view.fileUrl.None?)
      && (r.status == 200 && file.None? && Truthy(body.fileName) && Truthy(body.fileUrl) ==>
            r.payload.view.fileName == body.fileName && r.payload.view.fileUrl == FileUrl(body.fileUrl))
      && (r.status == 200 && file.None? && !(Truthy(body.fileName) && Truthy(body.fileUrl)) ==>
            r.payload.view.fileName.None? && r.payload.view.fileUrl.None?)
  {
  }

  /** An Employee may file a bill under another person's email; it is stored with
      that email and then lies outside the Employee's own scope. */
  lemma EmployeeMayFileForOthers(user: Principal, body: CreateBody, store: Store, key: string)
    requires user.role == Employee
    requires body.fields.email.Some? && body.fields.email.value != user.email
    requires key !in store
    ensures var (response, after) := Create(Some(user), body, None, store, Inserted(key));
      && response.status == 201
      && after[key].fields.email == body.fields.email
      && Get(Some(user), key, after, None) == Unauthorized
  {
  }

  /** A bill uploaded with only its file part carries no email, so no Employee can reach it. */
  lemma FileOnlyDraftIsAdminOnly(user: Principal, file: UploadedFile, store: Store, key: string, reader: Principal)
    requires reader.role == Employee && key !in store
    ensures var empty := Fields(None, None, None, None, None, None, None, None, None, None);
      var (_, after) := Create(Some(user), CreateBody(empty, None, None), Some(file), store, Inserted(key));
      Get(Some(reader), key, after, None) == Unauthorized
  {
  }

  /** Update writes status and the admin comment for anyone in scope: there is no role check. */
  lemma EmployeeMaySetStatus(user: Principal, id: string, store: Store, status: string, comment: string)
    requires user.role == Employee
    requires id in store && store[id].fields.email == Some(user.email)
    ensures var patch := Fields(None, None, None, None, None, None, None, Some(status), Some(comment), None);
      var (response, after) := Update(Some(user), id, patch, store, None);
      && response.status == 200
      && after[id].fields.status == Some(status)
      && after[id].fields.commentAdmin == Some(comment)
      && after[id].fields.email == Some(user.email)
  {
  }

  /** Update may rewrite the email too: an Employee who changes it moves the bill out of their own scope. */
  lemma EmailChangeLeavesScope(user: Principal, id: string, store: Store, patch: Fields)
    requires user.role == Employee
    requires id in store && store[id].fields.email == Some(user.email)
    requires patch.email.Some? && patch.email.value != user.email
    ensures var (_, after) := Update(Some(user), id, patch, store, None);
      Get(Some(user), id, after, None) == Unauthorized
  {
  }

  /** After an update the bill reads back with the merged attributes and its attachment untouched,
      for an Admin and for an Employee editing their own bill without changing its email. */
  lemma UpdateThenGet(user: Principal, id: string, patch: Fields, store: Store)
    requires id in store && InScope(user, store[id])
    requires user.role == Admin || patch.email.None? || patch.email == Some(user.email)
    ensures var (_, after) := Update(Some(user), id, patch, store, None);
      var r := Get(Some(user), id, after, None);
      && r.status == 200
      && r.payload.view.fields == Merge(store[id].fields, patch)
      && r.payload.view.fileName == store[id].fileName
      && r.payload.view.fileUrl == FileUrl(store[id].filePath)
  {
  }

  /** After a removal the bill is gone for everyone, and every other bill reads as before. */
  lemma RemoveThenGet(user: Principal, id: string, store: Store, reader: Principal, other: string)
    requires id in store && InScope(user, store[id])
    requires other != id
    ensures var (_, after) := Remove(Some(user), id, store, None);
      && Get(Some(reader), id, after, None) == Unauthorized
      && Get(Some(reader), other, after, None) == Get(Some(reader), other, store, None)
  {
  }

  // ---------------------------------------------------------------------------
  // Store invariant

  /** Create, update and remove keep every bill stored under its own key. */
  lemma OperationsKeepWellFormed(user: Option<Principal>, store: Store, id: string, patch: Fields,
                                 body: CreateBody, file: Option<UploadedFile>, insert: InsertReply, fault: Option<string>)
    requires WellFormed(store)
    requires insert.Inserted? ==> insert.key !in store
    ensures WellFormed(Create(user, body, file, store, insert).1)
    ensures WellFormed(Update(user, id, patch, store, fault).1)
    ensures WellFormed(Remove(user, id, store, fault).1)
  {
  }
}

=== FILE: bills_list.dfy ===
/** The bills page's fetch: it lists the bills from the store, formats each
    one's date and status for display, and sorts the result.

    The date and status formatters are given as functions; the date formatter
    is partial (None where it throws). The sort's comparator works on parsed
    dates and is not a consistent order, so the model fixes no order: the
    resulting arrangement is given as a permutation of positions. */
module BillsList {
  import opened Common

  /** A bill as the store lists it: its date, its status and all its other attributes. */
  datatype Doc = Doc(date: string, status: string, rest: map<string, string>)

  datatype Event = ListRequest

  /** What getBills returns: undefined without a store, otherwise the list promise. */
  datatype Fetch = Undefined | Promise(settled: Settled<seq<Doc>>)

  /** The display form of one bill. The status is always formatted; the date is
      formatted when the formatter succeeds and otherwise kept as it was. */
  function Normalize(doc: Doc, formatDate: string -> Option<string>, formatStatus: string -> string): (shown: Doc)
    ensures shown.rest == doc.rest
    ensures shown.status == formatStatus(doc.status)
    ensures formatDate(doc.date).None? ==> shown.date == doc.date
    ensures formatDate(doc.date).Some? ==> shown.date == formatDate(doc.date).value
  {
    match formatDate(doc.date)
    case Some(date) => doc.(date := date, status := formatStatus(doc.status))
    case None => doc.(status := formatStatus(doc.status))
  }

  /** Normalizes every bill, keeping positions. */
  function NormalizeAll(docs: seq<Doc>, formatDate: string -> Option<string>, formatStatus: string -> string): (shown: seq<Doc>)
    ensures |shown| == |docs|
    ensures forall i | 0 <= i < |docs| :: shown[i] == Normalize(docs[i], formatDate, formatStatus)
  {
    if docs == [] then []
    else [Normalize(docs[0], formatDate, formatStatus)] + NormalizeAll(docs[1..], formatDate, formatStatus)
  }

  /** `order` arranges the positions 0 .. n-1, each exactly once. */
  predicate IsPermutation(order: seq<nat>, n: nat)
  {
    && |order| == n
    && (forall i | 0 <= i < n :: order[i] < n)
    && (forall i, j | 0 <= i < j < n :: order[i] != order[j])
  }

  /** The elements of `xs` in the arrangement `order`. */
  function Arrange<T>(xs: seq<T>, order: seq<nat>): (ys: seq<T>)
    requires forall i | 0 <= i < |order| :: order[i] < |xs|
    ensures |ys| == |order|
    ensures forall i | 0 <= i < |order| :: ys[i] == xs[order[i]]
  {
    if order == [] then [] else [xs[order[0]]] + Arrange(xs, order[1..])
  }

  /** Arranging by a permutation keeps every element with its multiplicity. */
  lemma {:induction false} ArrangePermutes<T>(xs: seq<T>, order: seq<nat>)
    requires IsPermutation(order, |xs|)
    ensures multiset(Arrange(xs, order)) == multiset(xs)
    decreases |xs|
  {
    if xs != [] {
      var m := order[0];
      // Remove position m from xs, and renumber the remaining positions of the arrangement.
      var xs' := xs[..m] + xs[m + 1..];
      var order' := Renumber(order[1..], m);
      ArrangeStep(xs, order);
      ArrangePermutes(xs', order');
    }
  }

  /** One step of the induction: the first picked element, then the arrangement of the
      shortened sequence by the renumbered positions, which is again a permutation. */
  lemma ArrangeStep<T>(xs: seq<T>, order: seq<nat>)
    requires |xs| > 0 && IsPermutation(order, |xs|)
    ensures var m := order[0];
      var xs' := xs[..m] + xs[m + 1..];
      var order' := Renumber(order[1..], m);
      && |xs'| == |xs| - 1
      && IsPermutation(order', |xs'|)
      && multiset(Arrange(xs, order)) == multiset{xs[m]} + multiset(Arrange(xs', order'))
      && multiset(xs) == multiset{xs[m]} + multiset(xs')
  {
    RenumberPermutes(order, |xs|);
    ArrangeRemoved(xs, order);
    ArrangeHead(xs, order);
    MultisetAround(xs, order[0]);
  }

  /** The first picked element, then the rest of the arrangement, as multisets. */
  lemma ArrangeHead<T>(xs: seq<T>, order: seq<nat>)
    requires |order| > 0 && forall i | 0 <= i < |order| :: order[i] < |xs|
    ensures multiset(Arrange(xs, order)) == multiset{xs[order[0]]} + multiset(Arrange(xs, order[1..]))
  {
    assert Arrange(xs, order) == [xs[order[0]]] + Arrange(xs, order[1..]);
  }

  /** A sequence's elements are the one at position m and those around it. */
  lemma MultisetAround<T>(xs: seq<T>, m: nat)
    requires m < |xs|
    ensures multiset(xs) == multiset{xs[m]} + multiset(xs[..m] + xs[m + 1..])
  {
    assert xs == xs[..m] + [xs[m]] + xs[m + 1..];
  }

  /** Dropping the first position of a permutation and renumbering leaves a permutation of one fewer. */
  lemma RenumberPermutes(order: seq<nat>, n: nat)
    requires n > 0 && IsPermutation(order, n)
    ensures IsPermutation(Renumber(order[1..], order[0]), n - 1)
  {
    var m := order[0];
    var order' := Renumber(order[1..], m);
    forall i | 0 <= i < n - 1
      ensures order'[i] < n - 1
    {
      assert order[1..][i] == order[i + 1] != m;
    }
    forall i, j | 0 <= i < j < n - 1
      ensures order'[i] != order'[j]
    {
      assert order[i + 1] != order[j + 1];
      assert order[1..][i] == order[i + 1] != m;
      assert order[1..][j] == order[j + 1] != m;
    }
  }

  /** Arranging the shortened sequence by the renumbered positions picks the same elements
      as arranging the whole sequence by the remaining positions. */
  lemma ArrangeRemoved<T>(xs: seq<T>, order: seq<nat>)
    requires |xs| > 0 && IsPermutation(order, |xs|)
    ensures var m := order[0];
      Arrange(xs[..m] + xs[m + 1..], Renumber(order[1..], m)) == Arrange(xs, order[1..])
  {
    var m := order[0];
    var xs' := xs[..m] + xs[m + 1..];
    var order' := Renumber(order[1..], m);
    RenumberPermutes(order, |xs|);
    var left := Arrange(xs', order');
    var right := Arrange(xs, order[1..]);
    forall i | 0 <= i < |xs| - 1
      ensures left[i] == right[i]
    {
      var o := order[i + 1];
      assert order[1..][i] == o != m;
      assert right[i] == xs[o];
      assert left[i] == xs'[order'[i]];
      RemovedPosition(xs, m, o);
    }
  }

  /** After removing position m, the element that was at position o sits one place lower when o is past m. */
  lemma RemovedPosition<T>(xs: seq<T>, m: nat, o: nat)
    requires m < |xs| && o < |xs| && o != m
    ensures (xs[..m] + xs[m + 1..])[if o > m then o - 1 else o] == xs[o]
  {
    if o > m {
      assert (xs[..m] + xs[m + 1..])[o - 1] == xs[m + 1..][o - 1 - m];
    } else {
      assert (xs[..m] + xs[m + 1..])[o] == xs[..m][o];
    }
  }

  /** The positions of an arrangement after position `m` has been removed: those past it move down by one. */
  function Renumber(order: seq<nat>, m: nat): (order': seq<nat>)
    ensures |order'| == |order|
    ensures forall i | 0 <= i < |order| :: order'[i] == if order[i] > m then order[i] - 1 else order[i]
  {
    if order == [] then []
    else [if order[0] > m then order[0] - 1 else order[0]] + Renumber(order[1..], m)
  }

  /** getBills: without a store, undefined and no request; a failed listing is passed on
      unchanged; otherwise every bill is normalized and the result is some arrangement of them. */
  function GetBills(hasStore: bool, reply: Settled<seq<Doc>>, formatDate: string -> Option<string>,
                    formatStatus: string -> string, order: seq<nat>): (r: (Fetch, seq<Event>))
    requires reply.Resolved? ==> IsPermutation(order, |reply.value|)
    ensures !hasStore ==> r == (Undefined, [])
    ensures hasStore ==> r.1 == [ListRequest] && r.0.Promise?
    ensures hasStore && reply.Rejected? ==> r.0.settled == reply
    ensures hasStore && reply.Resolved? ==>
      && r.0.settled.Resolved?
      && |r.0.settled.value| == |reply.value|
      && multiset(r.0.settled.value) == multiset(NormalizeAll(reply.value, formatDate, formatStatus))
  {
    if !hasStore then (Undefined, [])
    else
      match reply
      case Rejected(e) => (Promise(Rejected(e)), [ListRequest])
      case Resolved(docs) =>
        var shown := NormalizeAll(docs, formatDate, formatStatus);
        ArrangePermutes(shown, order);
        (Promise(Resolved(Arrange(shown, order))), [ListRequest])
  }

  /** No bill is lost: each listed bill appears in the result in its display form, and one whose
      date cannot be formatted keeps its original date and still has its status formatted. */
  lemma NoBillDropped(reply: seq<Doc>, formatDate: string -> Option<string>, formatStatus: string -> string,
                      order: seq<nat>, i: nat)
    requires IsPermutation(order, |reply|)
    requires i < |reply|
    ensures var shown := GetBills(true, Resolved(reply), formatDate, formatStatus, order).0.settled.value;
      && Normalize(reply[i], formatDate, formatStatus) in shown
      && (formatDate(reply[i].date).None? ==>
            Doc(reply[i].date, formatStatus(reply[i].status), reply[i].rest) in shown)
  {
    var shown := GetBills(true, Resolved(reply), formatDate, formatStatus, order).0.settled.value;
    var all := NormalizeAll(reply, formatDate, formatStatus);
    assert all[i] in multiset(all);
    assert all[i] in multiset(shown);
  }
}

=== FILE: common.dfy ===
/** Small vocabulary shared by the backend and frontend models: optional values,
    JavaScript truthiness of optional strings, string prefixes and distinct sequences. */
module Common {

  /** A value that may be missing. None stands for JavaScript's `undefined` or `null`. */
  datatype Option<+T> = None | Some(value: T)

  /** The failure a promise rejects with, or an exception a call throws. */
  datatype Error =
    | Failure(message: string)   // an error raised by a store collaborator, message preserved
    | NullStore                  // the TypeError of reading `bills` on a null store

  /** How a promise settles: with a value, or rejected with an error. Store replies are given this way. */
  datatype Settled<+T> = Resolved(value: T) | Rejected(error: Error)

  /** JavaScript truthiness of a string-or-missing value: only a present, non-empty string is truthy. */
  predicate Truthy(s: Option<string>)
  {
    s.Some? && s.value != ""
  }

  predicate StartsWith(s: string, prefix: string)
  {
    |prefix| <= |s| && s[..|prefix|] == prefix
  }

  /** No element occurs twice. */
  predicate Distinct<T(==)>(xs: seq<T>)
  {
    forall i, j | 0 <= i < j < |xs| :: xs[i] != xs[j]
  }

  function Elements<T>(xs: seq<T>): set<T>
  {
    set x | x in xs
  }

  /** A sequence without repetitions has as many distinct elements as positions. */
  lemma {:induction false} DistinctCardinality<T>(xs: seq<T>)
    requires Distinct(xs)
    ensures |Elements(xs)| == |xs|
  {
    if xs != [] {
      var tail := xs[1..];
      assert Distinct(tail) by {
        forall i, j | 0 <= i < j < |tail|
          ensures tail[i] != tail[j]
        {
          assert tail[i] == xs[i + 1] && tail[j] == xs[j + 1];
        }
      }
      DistinctCardinality(tail);
      assert xs[0] !in tail by {
        forall i | 0 <= i < |tail|
          ensures tail[i] != xs[0]
        {
          assert tail[i] == xs[i + 1];
        }
      }
      assert xs == [xs[0]] + tail;
      assert Elements(xs) == {xs[0]} + Elements(tail);
    }
  }

  /** A non-empty sequence is its first element followed by the rest, also inside a concatenation. */
  lemma Uncons<T>(front: seq<T>, back: seq<T>)
    requires front != []
    ensures front == [front[0]] + front[1..]
    ensures front + back == [front[0]] + (front[1..] + back)
  {
  }

  /** Concatenation is associative. */
  lemma Associative<T>(a: seq<T>, b: seq<T>, c: seq<T>)
    ensures a + (b + c) == (a + b) + c
  {
  }
}

=== FILE: new_bill_form.dfy ===
/** The new-bill form of the frontend: choosing a file uploads it at once,
    submitting the form creates the bill and leaves for the bills page, and a
    separate update sends the form to the bill the upload created.

    The form's state is the uploaded file's URL and name and the key of the
    bill the upload created. The store's replies are given as parameters
    (`hasStore` is false for a null store); what each handler does to the
    outside world is recorded as a sequence of events. */
module NewBillForm {
  import opened Common

  datatype State = State(fileUrl: Option<string>, fileName: Option<string>, billId: Option<string>)

  /** The state of a freshly mounted form. */
  const Initial := State(None, None, None)

  /** The file the user picked: its name and its declared media type. */
  datatype File = File(name: string, mimeType: string)

  const ValidTypes := ["image/jpeg", "image/jpg", "image/png"]
  const FallbackBase := "http://localhost:5678/public/"
  const WrongType := "Please upload file having extensions .jpeg/.jpg/.png only."

  datatype Route = BillsPage

  /** The raw values of the form's inputs. */
  datatype FormInput = FormInput(expenseType: string, name: string, amount: string, date: string,
                                 vat: string, pct: string, commentary: string)

  /** The bill handleSubmit sends to the store. */
  datatype NewBillBody = NewBillBody(
    email: string, expenseType: string, name: string, amount: Option<int>, date: string,
    vat: string, pct: int, commentary: string,
    fileUrl: Option<string>, fileName: Option<string>, status: string)

  /** The store's answer to an upload. Either part may be missing. */
  datatype UploadAnswer = UploadAnswer(fileUrl: Option<string>, key: Option<string>)

  /** What handleChangeFile resolves with after an upload. */
  datatype Uploaded = Uploaded(fileUrl: string, key: Option<string>, fileName: string)

  datatype Event =
    | Alert(message: string)
    | ResetInput                                            // the file input's value set to ''
    | UploadRequest(file: File, noContentType: bool)        // bills().create with the file as form data
    | CreateRequest(bill: NewBillBody)                      // bills().create with the bill as JSON
    | UpdateRequest(bill: NewBillBody, selector: Option<string>)
    | Navigate(route: Route)
    | LogError(context: string, error: Error)

  /** A handler's effect: the state afterwards, the events in order, and what it returns. */
  datatype Step<+T> = Step(state: State, events: seq<Event>, result: T)

  /** Number of uploads a sequence of events issues. */
  function Uploads(events: seq<Event>): nat
  {
    if events == [] then 0 else (if events[0].UploadRequest? then 1 else 0) + Uploads(events[1..])
  }

  /** The URL the form keeps for an upload: the store's URL when it gave a
      non-empty one, and otherwise one built from the public folder and the file name. */
  function StoredUrl(answer: UploadAnswer, file: File): (url: string)
    ensures Truthy(answer.fileUrl) ==> url == answer.fileUrl.value
    ensures !Truthy(answer.fileUrl) ==> url == FallbackBase + file.name
  {
    if Truthy(answer.fileUrl) then answer.fileUrl.value else FallbackBase + file.name
  }

  // ---------------------------------------------------------------------------
  // handleChangeFile

  /** A file of a type outside the accepted list is refused before any upload;
      an accepted one is uploaded once. A null store fails like a rejected
      upload, with the TypeError of reaching through it. */
  function HandleChangeFile(state: State, file: File, hasStore: bool,
                            reply: Settled<UploadAnswer>): (step: Step<Settled<Option<Uploaded>>>)
    ensures file.mimeType !in ValidTypes ==>
      step == Step(state, [Alert(WrongType), ResetInput], Resolved(None))
    ensures Uploads(step.events) == (if file.mimeType in ValidTypes && hasStore then 1 else 0)
    ensures step.result.Rejected? ==> step.state == state && ResetInput in step.events
    ensures step.result.Rejected? && hasStore ==> reply.Rejected? && step.result.error == reply.error
    ensures step.result.Resolved? && step.result.value.Some? ==>
      var up := step.result.value.value;
      && reply.Resolved?
      && up == Uploaded(StoredUrl(reply.value, file), reply.value.key, file.name)
      && step.state == State(Some(up.fileUrl), Some(file.name), reply.value.key)
    ensures file.mimeType in ValidTypes && !hasStore ==>
      && step.result == Rejected(NullStore)
      && step.events == [LogError("Error uploading file:", NullStore), ResetInput]
    ensures file.mimeType in ValidTypes && hasStore && reply.Resolved? ==>
      && step.result == Resolved(Some(Uploaded(StoredUrl(reply.value, file), reply.value.key, file.name)))
      && step.state.fileUrl == Some(StoredUrl(reply.value, file))
      && step.events == [UploadRequest(file, true)]
    ensures file.mimeType in ValidTypes && hasStore && reply.Rejected? ==>
      && step.result == Rejected(reply.error)
      && step.events == [UploadRequest(file, true), LogError("Error uploading file:", reply.error), ResetInput]
  {
    if file.mimeType !in ValidTypes then
      var events := [Alert(WrongType), ResetInput];
      assert Uploads(events[1..]) == 0 by { assert events[1..][1..] == []; }
      Step(state, events, Resolved(None))
    else if !hasStore then
      var events := [LogError("Error uploading file:", NullStore), ResetInput];
      assert Uploads(events[1..]) == 0 by { assert events[1..][1..] == []; }
      Step(state, events, Rejected(NullStore))
    else
      var request := UploadRequest(file, true);
      match reply
      case Rejected(e) =>
        var events := [request, LogError("Error uploading file:", e), ResetInput];
        assert Uploads(events[1..]) == 0 by {
          assert events[1..][1..] == [ResetInput];
          assert events[1..][1..][1..] == [];
        }
        Step(state, events, Rejected(e))
      case Resolved(answer) =>
        var url := StoredUrl(answer, file);
        Step(State(Some(url), Some(file.name), answer.key), [request], Resolved(Some(Uploaded(url, answer.key, file.name))))
  }

  /** The frontend refuses gif, which the backend would store. */
  lemma GifRefused(state: State, name: string, hasStore: bool, reply: Settled<UploadAnswer>)
    ensures var step := HandleChangeFile(state, File(name, "image/gif"), hasStore, reply);
      step.state == state && step.result == Resolved(None) && Uploads(step.events) == 0
  {
  }

  // ---------------------------------------------------------------------------
  // handleSubmit and createBill

  /** `parseInt(value) || 20`: a missing number (NaN) or zero becomes 20. */
  function Pct(parsed: Option<int>): (pct: int)
    ensures pct != 0
    ensures parsed.Some? && parsed.value != 0 ==> pct == parsed.value
    ensures parsed.None? || parsed.value == 0 ==> pct == 20
  {
    if parsed.Some? && parsed.value != 0 then parsed.value else 20
  }

  /** The bill built from the form, the stored upload and the signed-in user's email. */
  function BuildBill(state: State, form: FormInput, email: string, parseInt: string -> Option<int>): (bill: NewBillBody)
    ensures bill.status == "pending" && bill.email == email
    ensures bill.fileUrl == state.fileUrl && bill.fileName == state.fileName
    ensures bill.amount == parseInt(form.amount) && bill.pct == Pct(parseInt(form.pct))
    ensures bill.expenseType == form.expenseType && bill.name == form.name && bill.date == form.date
    ensures bill.vat == form.vat && bill.commentary == form.commentary
  {
    NewBillBody(email, form.expenseType, form.name, parseInt(form.amount), form.date, form.vat,
                Pct(parseInt(form.pct)), form.commentary, state.fileUrl, state.fileName, "pending")
  }

  /** The events of a store call split into those issued at once and those issued when the reply arrives. */
  datatype Call = Call(now: seq<Event>, later: seq<Event>)

  /** createBill: posts the bill, then navigates to the bills page on success or logs
      the failure. It returns undefined and never throws. Without a store it does nothing. */
  function CreateBill(bill: NewBillBody, hasStore: bool, reply: Settled<()>): (call: Call)
    ensures !hasStore ==> call == Call([], [])
    ensures hasStore ==> call.now == [CreateRequest(bill)]
    ensures hasStore && reply.Resolved? ==> call.later == [Navigate(BillsPage)]
    ensures hasStore && reply.Rejected? ==> call.later == [LogError("Error creating bill:", reply.error)]
  {
    if !hasStore then Call([], [])
    else
      match reply
      case Resolved(_) => Call([CreateRequest(bill)], [Navigate(BillsPage)])
      case Rejected(e) => Call([CreateRequest(bill)], [LogError("Error creating bill:", e)])
  }

  /** handleSubmit: builds the bill, starts createBill, and navigates to the bills page
      before the store replies. The form's state is left as it is. */
  function HandleSubmit(state: State, form: FormInput, email: string, parseInt: string -> Option<int>,
                        hasStore: bool, reply: Settled<()>): (step: Step<()>)
    ensures step.state == state
    ensures !hasStore ==> step.events == [Navigate(BillsPage)]
    ensures hasStore && reply.Resolved? ==>
      step.events == [CreateRequest(BuildBill(state, form, email, parseInt)), Navigate(BillsPage), Navigate(BillsPage)]
    ensures hasStore && reply.Rejected? ==>
      step.events == [CreateRequest(BuildBill(state, form, email, parseInt)), Navigate(BillsPage),
                      LogError("Error creating bill:", reply.error)]
  {
    var call := CreateBill(BuildBill(state, form, email, parseInt), hasStore, reply);
    Step(state, call.now + [Navigate(BillsPage)] + call.later, ())
  }

  /** Submitting always navigates to the bills page, whatever the store answers, and sends
      a pending bill carrying the uploaded file's URL and name. */
  lemma SubmitAlwaysNavigates(state: State, form: FormInput, email: string, parseInt: string -> Option<int>,
                              hasStore: bool, reply: Settled<()>)
    ensures var step := HandleSubmit(state, form, email, parseInt, hasStore, reply);
      && Navigate(BillsPage) in step.events
      && (hasStore ==> step.events[0].CreateRequest? && step.events[1] == Navigate(BillsPage)
                       && step.events[0].bill.status == "pending"
                       && step.events[0].bill.fileUrl == state.fileUrl
                       && step.events[0].bill.fileName == state.fileName)
      && (!hasStore ==> step.events == [Navigate(BillsPage)])
  {
    var step := HandleSubmit(state, form, email, parseInt, hasStore, reply);
    if hasStore {
      assert step.events[1] == Navigate(BillsPage);
    } else {
      assert step.events == [Navigate(BillsPage)];
    }
  }

  // ---------------------------------------------------------------------------
  // updateBill

  /** What updateBill returns: null without a store, otherwise the store call's promise. */
  datatype UpdateResult<+T> = NullResult | Promise(settled: Settled<T>)

  /** updateBill: sends the bill to the bill the upload created, then navigates to the
      bills page and resolves with the store's response, or logs and rethrows the failure. */
  function UpdateBill<T>(state: State, bill: NewBillBody, hasStore: bool, reply: Settled<T>): (step: Step<UpdateResult<T>>)
    ensures step.state == state
    ensures !hasStore ==> step.result == NullResult && step.events == []
    ensures hasStore ==> step.result == Promise(reply)
    ensures hasStore ==> |step.events| == 2 && step.events[0] == UpdateRequest(bill, state.billId)
    ensures hasStore && reply.Resolved? ==> step.events == [UpdateRequest(bill, state.billId), Navigate(BillsPage)]
    ensures hasStore && reply.Rejected? ==>
      step.events == [UpdateRequest(bill, state.billId), LogError("Error updating bill:", reply.error)]
  {
    if !hasStore then Step(state, [], NullResult)
    else
      var request := UpdateRequest(bill, state.billId);
      match reply
      case Resolved(_) => Step(state, [request, Navigate(BillsPage)], Promise(reply))
      case Rejected(e) => Step(state, [request, LogError("Error updating bill:", e)], Promise(reply))
  }

  // ---------------------------------------------------------------------------
  // Two-phase submission

  /** Upload then submit: the submitted bill carries the URL and name the upload stored. */
  lemma UploadThenSubmit(file: File, answer: UploadAnswer, form: FormInput, email: string,
                         parseInt: string -> Option<int>, reply: Settled<()>)
    requires file.mimeType in ValidTypes
    ensures var up := HandleChangeFile(Initial, file, true, Resolved(answer));
      var step := HandleSubmit(up.state, form, email, parseInt, true, reply);
      && step.events[0].CreateRequest?
      && step.events[0].bill.fileUrl == Some(StoredUrl(answer, file))
      && step.events[0].bill.fileName == Some(file.name)
  {
  }

  /** Upload then update: the update targets the key the upload returned. */
  lemma UploadThenUpdate<T>(file: File, answer: UploadAnswer, bill: NewBillBody, reply: Settled<T>)
    requires file.mimeType in ValidTypes
    ensures var up := HandleChangeFile(Initial, file, true, Resolved(answer));
      UpdateBill(up.state, bill, true, reply).events[0] == UpdateRequest(bill, answer.key)
  {
  }

  /** A failed upload leaves an earlier successful upload's state in place. */
  lemma FailedUploadKeepsEarlier(first: File, answer: UploadAnswer, second: File, error: Error)
    requires first.mimeType in ValidTypes
    ensures var up := HandleChangeFile(Initial, first, true, Resolved(answer));
      var again := HandleChangeFile(up.state, second, true, Rejected(error));
      again.state == up.state && again.state.billId == answer.key
  {
  }
}

=== FILE: pipeline.dfy ===
/** A bill request end to end: the authentication middleware runs first, and
    the bill handler runs only when it passes the request on, with the user it
    attached. Also relates the attachment types the two tiers accept. */
module Pipeline {
  import opened Common
  import opened BillController
  import opened AuthMiddleware
  import NewBillForm

  /** One of the five bill routes with its parameters and the store's replies. */
  datatype Operation =
    | CreateOp(body: CreateBody, file: Option<UploadedFile>, insert: InsertReply)
    | GetOp(id: string)
    | ListOp(order: seq<string>)
    | UpdateOp(id: string, patch: Fields)
    | RemoveOp(id: string)

  /** A create's insert, when it succeeds, yields a key no stored bill carries. */
  predicate FreshKey(op: Operation, store: Store)
  {
    op.CreateOp? && op.insert.Inserted? ==> op.insert.key !in store
  }

  /** The handler the route dispatches to, given the user the request carries. */
  function Handle(user: Option<Principal>, op: Operation, store: Store, fault: Option<string>): (Response, Store)
    requires FreshKey(op, store)
  {
    match op
    case CreateOp(body, file, insert) => Create(user, body, file, store, insert)
    case GetOp(id) => (Get(user, id, store, fault), store)
    case ListOp(order) => (List(user, order, store, fault), store)
    case UpdateOp(id, patch) => Update(user, id, patch, store, fault)
    case RemoveOp(id) => Remove(user, id, store, fault)
  }

  /** The middleware, then the handler when the middleware called `next`. */
  function Serve(header: Option<string>, verify: Option<string> -> VerifyReply,
                 lookup: Option<string> -> LookupReply, op: Operation, store: Store, fault: Option<string>): (Response, Store)
    requires FreshKey(op, store)
  {
    var trace := Middleware(header, verify, lookup);
    if NextCalls(trace) == 0 then (Response(401, Message(NotAllowed)), store)
    else Handle(HandlerUser(trace), op, store, fault)
  }

  /** Every handler refuses a request without a user with the same 401 and leaves the store alone. */
  lemma NoUserNoAccess(op: Operation, store: Store, fault: Option<string>)
    requires FreshKey(op, store)
    ensures Handle(None, op, store, fault) == (Unauthenticated, store)
  {
  }

  /** The end-to-end authentication rule: a request reaches the bill logic only when it
      carries an Authorization header whose token verifies and names a known user.
      Every other request is answered 401 and changes nothing. */
  lemma OnlyKnownUsersReachBills(header: Option<string>, verify: Option<string> -> VerifyReply,
                                 lookup: Option<string> -> LookupReply, op: Operation, store: Store, fault: Option<string>)
    requires FreshKey(op, store)
    ensures var r := Serve(header, verify, lookup, op, store, fault);
      var known := Truthy(header) && verify(Token(header.value)).Verified? &&
                   lookup(verify(Token(header.value)).email).Found?;
      && (!known ==> r.0.status == 401 && r.1 == store)
      && (known ==> r == Handle(Some(lookup(verify(Token(header.value)).email).user), op, store, fault))
  {
    var trace := Middleware(header, verify, lookup);
    if NextCalls(trace) != 0 {
      NoUserNoAccess(op, store, fault);
    }
  }

  /** A valid token whose email is unknown passes the middleware with a null user,
      and the bill handler then answers that the user must be authenticated. */
  lemma UnknownEmailIsUnauthenticated(header: Option<string>, verify: Option<string> -> VerifyReply,
                                      lookup: Option<string> -> LookupReply, op: Operation, store: Store, fault: Option<string>)
    requires FreshKey(op, store)
    requires Truthy(header) && verify(Token(header.value)).Verified?
    requires lookup(verify(Token(header.value)).email).NotFound?
    ensures var trace := Middleware(header, verify, lookup);
      NextCalls(trace) == 1 && HandlerUser(trace).None?
    ensures Serve(header, verify, lookup, op, store, fault) == (Unauthenticated, store)
  {
    NoUserNoAccess(op, store, fault);
  }

  /** Without an Authorization header the request passes anonymously, and the bill handler refuses it. */
  lemma AnonymousIsUnauthenticated(verify: Option<string> -> VerifyReply, lookup: Option<string> -> LookupReply,
                                   op: Operation, store: Store, fault: Option<string>)
    requires FreshKey(op, store)
    ensures Middleware(None, verify, lookup) == [CallNext]
    ensures Serve(None, verify, lookup, op, store, fault) == (Unauthenticated, store)
  {
    NoUserNoAccess(op, store, fault);
  }

  /** The types the form uploads are exactly the backend's picture types other than gif. */
  lemma UploadTypesAgreeExceptGif(mimeType: string)
    ensures mimeType in NewBillForm.ValidTypes <==> IsPicture(mimeType) && mimeType != "image/gif"
  {
  }
}
